=== FILE: README.md ===
# TLV0001: using statement missing await

A Dafny model of the Roslyn analyzer rule TLV0001 and its code fix. The rule
reports a C# `using` statement whose declaration binds a `Task<T>` with a
disposable `T`: the statement then disposes the task instead of the task's
result, which almost always means an `await` is missing. The code fix wraps
the initializers of the statement's declarators in `await`.

The model has six modules:

- `Wrappers`: `Option` for C# nulls, `Result` for exceptions.
- `Types`: a resolved type symbol (kind, full metadata name, generic flag,
  type arguments, `AllInterfaces`), the predicates `IsTaskWithResult` and
  `IsDisposable`, and an independent characterisation of disposability as a
  chain of implemented interfaces ending at `System.IDisposable`.
- `Syntax`: spans, initializer expressions, declarators, declarations, using
  statements, and a statement tree addressed by child-index paths, with
  `Lookup` and the single-node replacement `ReplaceAt` (Roslyn's `ReplaceNode`).
- `Analyzer`: the decision and the diagnostic for one using statement.
- `CodeFix`: locating the nearest enclosing using statement, the
  declarator-wrapping loop, and the rewrite of the tree.
- `Scenarios`: the repository's four unit tests, restated over the model.

Inputs from the host are parameters. The semantic model's answer for the
declared type is an `Option<Ty>` stored in the declaration. The node that
`FindNode` returns for a diagnostic's span is a path into the tree.

Three behaviours of the code worth noting:

- The code fix wraps every declarator's initializer, whatever its type
  (see `CodeFix.WrapDeclarators`).
- Applying the fix twice wraps twice, so it is not idempotent
  (`CodeFix.RewriteTwiceDoubleWraps`).
- The reported span is the half-open range `[using.Start, ).End)`.

The rewrite also keeps the declared type as written. It yields well-typed code
for `var` inside an `async` method. With an explicitly written `Task<Stream>`,
the awaited value no longer matches the declared type. The fix also never checks
that `await` is allowed where it inserts it: in a method or lambda that is not
`async`, or inside a `lock` body, the result does not compile. The model has no
type checker to show these consequences.

## Model

| member | source | states |
|---|---|---|
| Types.IsTaskWithResult | ThomasLevesque.Analyzers.CSharp/ThomasLevesque.Analyzers.CSharp/UsingStatementMissingAwaitAnalyzer.cs:51-67 | the result is present exactly for a generic type named `System.Threading.Tasks.Task`1`, is absent for every non-generic type, and is then the first type argument |
| Types.TaskOfRoundTrip | ThomasLevesque.Analyzers.CSharp/ThomasLevesque.Analyzers.CSharp/UsingStatementMissingAwaitAnalyzer.cs:60-66 | for `Task<T>` the recovered result type is exactly `T` |
| Types.IsDisposable | ThomasLevesque.Analyzers.CSharp/ThomasLevesque.Analyzers.CSharp/UsingStatementMissingAwaitAnalyzer.cs:69-82 | the type is the named `System.IDisposable`, or one of its listed interfaces is disposable; characterised independently by `Types.DisposableIffChain` |
| Types.DisposableHasChain | ThomasLevesque.Analyzers.CSharp/ThomasLevesque.Analyzers.CSharp/UsingStatementMissingAwaitAnalyzer.cs:69-82 | every disposable type reaches `System.IDisposable` through a chain of implemented interfaces |
| Types.ChainMakesDisposable | ThomasLevesque.Analyzers.CSharp/ThomasLevesque.Analyzers.CSharp/UsingStatementMissingAwaitAnalyzer.cs:69-82 | every type with such an interface chain is disposable |
| Types.DisposableIffChain | ThomasLevesque.Analyzers.CSharp/ThomasLevesque.Analyzers.CSharp/UsingStatementMissingAwaitAnalyzer.cs:69-82 | disposable holds if and only if an interface chain leads from the type to the named type `System.IDisposable` |
| Types.MoreInterfacesStayDisposable | ThomasLevesque.Analyzers.CSharp/ThomasLevesque.Analyzers.CSharp/UsingStatementMissingAwaitAnalyzer.cs:76 | a type with the same kind and name that implements at least the interfaces of a disposable type is disposable too |
| Types.ClosedDisposableIsDirect | ThomasLevesque.Analyzers.CSharp/ThomasLevesque.Analyzers.CSharp/UsingStatementMissingAwaitAnalyzer.cs:69-82 | when interface lists are transitively closed, as Roslyn's `AllInterfaces` is, a type is disposable exactly when it is `System.IDisposable` or lists it directly |
| Analyzer.AnalyzeUsingStatement | ThomasLevesque.Analyzers.CSharp/ThomasLevesque.Analyzers.CSharp/UsingStatementMissingAwaitAnalyzer.cs:31-48 | no diagnostic without a declaration or without a resolved type; otherwise at most one, reported exactly for a named `Task`1` with a disposable argument; id `TLV0001`, severity Warning, span from the `using` start to the `)` end, ending before the body; the message argument is the text at that span, character by character |
| Analyzer.FlagsType | ThomasLevesque.Analyzers.CSharp/ThomasLevesque.Analyzers.CSharp/UsingStatementMissingAwaitAnalyzer.cs:37-39 | the resolved type is a named type, is `Task<T>`, and `T` is disposable; `Analyzer.TaskOfDisposableFlagged` and `Analyzer.NonTaskNotFlagged` state its consequences |
| Analyzer.ReportedIffTaskOfDisposable | ThomasLevesque.Analyzers.CSharp/ThomasLevesque.Analyzers.CSharp/UsingStatementMissingAwaitAnalyzer.cs:35-39 | a diagnostic is reported if and only if the declared type resolves to the named generic `Task`1` whose first argument has an interface chain to `System.IDisposable` |
| Analyzer.DeclaratorsDoNotMatter | ThomasLevesque.Analyzers.CSharp/ThomasLevesque.Analyzers.CSharp/UsingStatementMissingAwaitAnalyzer.cs:31-48 | the diagnostic does not depend on the declarators, so a statement with several declarators is reported once |
| Analyzer.TaskOfDisposableFlagged | ThomasLevesque.Analyzers.CSharp/ThomasLevesque.Analyzers.CSharp/UsingStatementMissingAwaitAnalyzer.cs:39 | `Task<T>` is flagged exactly when `T` is disposable |
| Analyzer.NonTaskNotFlagged | ThomasLevesque.Analyzers.CSharp/ThomasLevesque.Analyzers.CSharp/UsingStatementMissingAwaitAnalyzer.cs:39 | a type that is not the generic `Task`1` is never flagged, even when it is disposable |
| Syntax.ReplaceAt | ThomasLevesque.Analyzers.CSharp/ThomasLevesque.Analyzers.CSharp/UsingStatementMissingAwaitCodeFixProvider.cs:57 | after replacement the path leads to the new node |
| Syntax.ReplaceAtLeavesOthers | ThomasLevesque.Analyzers.CSharp/ThomasLevesque.Analyzers.CSharp/UsingStatementMissingAwaitCodeFixProvider.cs:57 | replacing one node leaves every node of a disjoint subtree unchanged |
| Syntax.ReplaceAtRebuildsAncestors | ThomasLevesque.Analyzers.CSharp/ThomasLevesque.Analyzers.CSharp/UsingStatementMissingAwaitCodeFixProvider.cs:57 | each ancestor of the replaced node is the old ancestor with only its child on the path swapped; an enclosing using statement keeps its whole header and a block its other statements |
| Syntax.ReplaceAtUndo | ThomasLevesque.Analyzers.CSharp/ThomasLevesque.Analyzers.CSharp/UsingStatementMissingAwaitCodeFixProvider.cs:57 | putting the original node back at the same path gives back the original tree, so the replacement changes nothing but that one node |
| CodeFix.Fixes | ThomasLevesque.Analyzers.CSharp/ThomasLevesque.Analyzers.CSharp/UsingStatementMissingAwaitCodeFixProvider.cs:20 | the fix answers only to the id `TLV0001` |
| CodeFix.FindUsing | ThomasLevesque.Analyzers.CSharp/ThomasLevesque.Analyzers.CSharp/UsingStatementMissingAwaitCodeFixProvider.cs:31 | returns the path of a using statement on the path to the found node, with no using statement below it on that path; returns nothing when no using statement is among the node and its ancestors |
| CodeFix.RegisterCodeFixes | ThomasLevesque.Analyzers.CSharp/ThomasLevesque.Analyzers.CSharp/UsingStatementMissingAwaitCodeFixProvider.cs:24-41 | registers nothing exactly when no using statement encloses the found node; otherwise targets the innermost one, for the first diagnostic, under the key `TLV0001-CodeFix` |
| CodeFix.WrapDeclarators | ThomasLevesque.Analyzers.CSharp/ThomasLevesque.Analyzers.CSharp/UsingStatementMissingAwaitCodeFixProvider.cs:45-51 | succeeds exactly when every declarator has an initializer; the result has the same length and order and the same names, and each initializer value `v` becomes `await v` |
| CodeFix.AddAwait | ThomasLevesque.Analyzers.CSharp/ThomasLevesque.Analyzers.CSharp/UsingStatementMissingAwaitCodeFixProvider.cs:43-60 | fails exactly on a missing declaration or initializer; otherwise the using statement at the target keeps its keyword, parenthesis, body and declared type, and only its declarators are awaited; putting the old statement back yields the original tree, and disjoint subtrees are unchanged; the node keeps the span recorded before the edit, since positions are not recomputed |
| CodeFix.UnwrapRestores | ThomasLevesque.Analyzers.CSharp/ThomasLevesque.Analyzers.CSharp/UsingStatementMissingAwaitCodeFixProvider.cs:46-51 | removing one `await` from each rewritten declarator gives back the original declarators |
| CodeFix.RewriteTwiceDoubleWraps | ThomasLevesque.Analyzers.CSharp/ThomasLevesque.Analyzers.CSharp/UsingStatementMissingAwaitCodeFixProvider.cs:46-51 | rewriting twice wraps each initializer in two `await`s, which differs from rewriting once |
| Scenarios.AwaitPresentNotReported | ThomasLevesque.Analyzers.CSharp/ThomasLevesque.Analyzers.CSharp.Test/UsingStatementMissingAwaitAnalyzerTests.cs:14-38 | `using (var stream = await GetStreamAsync())` declaring a `Stream` is not reported |
| Scenarios.SyncCallNotReported | ThomasLevesque.Analyzers.CSharp/ThomasLevesque.Analyzers.CSharp.Test/UsingStatementMissingAwaitAnalyzerTests.cs:41-65 | `using (var stream = GetStream())` declaring a `Stream` is not reported |
| Scenarios.MissingAwaitReported | ThomasLevesque.Analyzers.CSharp/ThomasLevesque.Analyzers.CSharp.Test/UsingStatementMissingAwaitAnalyzerTests.cs:68-99 | `using (var stream = GetStreamAsync())` declaring a `Task<Stream>` gives one Warning `TLV0001` spanning exactly its header, whose argument is `using (var stream = GetStreamAsync())` |
| Scenarios.RewrittenTestHeader | ThomasLevesque.Analyzers.CSharp/ThomasLevesque.Analyzers.CSharp.Test/UsingStatementMissingAwaitAnalyzerTests.cs:137 | the rewritten test header reads `using (var stream = await GetStreamAsync())` and keeps its body |
| Scenarios.CodeFixOnTestInput | ThomasLevesque.Analyzers.CSharp/ThomasLevesque.Analyzers.CSharp.Test/UsingStatementMissingAwaitAnalyzerTests.cs:102-146 | on the test method the fix succeeds, the header becomes `using (var stream = await GetStreamAsync())`, and the body and the preceding statement are unchanged |

## Left out

- Registration and metadata: `Initialize`, `RegisterSyntaxNodeAction`, `SupportedDiagnostics`, and the `[DiagnosticAnalyzer]` and `[ExportCodeFixProvider]` attributes. These are host plumbing.
- The localized title, message format and description resources. The model keeps the message argument, which is the only part the code computes.
- Semantic-model type resolution (`GetTypeInfo`). This is a host service, so the resolved type is an input.
- `GetFullName`, the project's own helper from its `Internal` namespace. Its file is not part of this model. Its result is the field `Ty.fullName`, assumed to be the namespace-qualified metadata name with the arity suffix, as the comparisons at lines 60 and 71 of the analyzer require.
- Analyzer.AnalyzeUsingStatement: assumes the syntax tree's source text is available. The analyzer ignores the result of `TryGetText` at line 43; when it fails, line 44 throws a `NullReferenceException` and no diagnostic is reported. The model always reports a flagged statement instead.
- `FindNode` is a host call. The node it returns is an input, given as a path.
- Asynchronous document retrieval, `CancellationToken`, `ConfigureAwait` and `CodeAction.Create`. These are I/O and async plumbing.
- `GetFixAllProvider` and the batch fixer. These belong to the host.
- Re-analysis after the fix. The rewrite carries the old resolved type forward, because re-resolving `var` needs C# type inference.
- Token positions after the rewrite. Roslyn recomputes them after inserting `await `; the model keeps the spans recorded before the edit, so spans in a rewritten tree are the original positions, not the new ones.
- Positions count elements of the `text` sequence, that is Unicode scalar values, where Roslyn's `TextSpan` counts UTF-16 code units. A character outside the Basic Multilingual Plane before a statement shifts the two apart.
- Line and column conversion of diagnostic locations, the test harness, and rendering of the full document text.

=== FILE: Analyzer.dfy ===
/** The TLV0001 analyzer: flags a using statement whose declared type is
    `Task<T>` with a disposable `T`, reporting the statement's header. */
module Analyzer {
  import opened Wrappers
  import opened Types
  import opened Syntax

  /** The rule's identifier. */
  const DiagnosticId: string := "TLV0001"

  /** Roslyn's `DiagnosticSeverity`. */
  datatype Severity = Hidden | Info | Warning | Error

  /** The rule's default severity. */
  const RuleSeverity: Severity := Warning

  /** A reported diagnostic: rule id, severity, location, and the single argument
      substituted into the message format. */
  datatype Diagnostic = Diagnostic(id: string, severity: Severity, span: Span, messageArg: string)

  /** The decision of the rule on a resolved declared type: it is a named type,
      it is `Task<T>`, and `T` is disposable. */
  predicate FlagsType(t: Ty)
    requires ArityConsistent(t)
  {
    && t.kind == NamedType
    && IsTaskWithResult(t).Some?
    && IsDisposable(IsTaskWithResult(t).value)
  }

  /** What the host hands the analyzer for one using statement: its tokens lie in
      order inside the text, and the resolved declared type, if any, is a
      well-formed symbol. */
  predicate HostInvariants(text: string, u: UsingStatement) {
    && TokensInOrder(u, |text|)
    && (u.declaration.Some? && u.declaration.value.resolvedType.Some? ==>
          ArityConsistent(u.declaration.value.resolvedType.value))
  }

  /** `AnalyzeUsingStatement`: at most one diagnostic per using statement. It is
      reported exactly when the statement has a declaration whose type resolves to
      a flagged type; it covers `using` through `)`, excluding the body, and its
      message argument is the source text of that span. */
  function AnalyzeUsingStatement(text: string, u: UsingStatement): (r: Option<Diagnostic>)
    requires HostInvariants(text, u)
    ensures u.declaration.None? ==> r == None
    ensures u.declaration.Some? && u.declaration.value.resolvedType.None? ==> r == None
    ensures r.Some? <==>
              && u.declaration.Some?
              && u.declaration.value.resolvedType.Some?
              && FlagsType(u.declaration.value.resolvedType.value)
    ensures r.Some? ==>
              && r.value.id == "TLV0001"
              && r.value.severity == Warning
              && r.value.span.start == u.usingKeyword.start
              && r.value.span.end == u.closeParen.end
              && r.value.span.start <= r.value.span.end <= u.body.span.start
              && |r.value.messageArg| == r.value.span.end - r.value.span.start
              && forall k :: 0 <= k < |r.value.messageArg| ==>
                   r.value.messageArg[k] == text[r.value.span.start + k]
  {
    match u.declaration
    case None => None
    case Some(decl) =>
      match decl.resolvedType
      case None => None
      case Some(t) =>
        if t.kind == NamedType then
          match IsTaskWithResult(t)
          case None => None
          case Some(resultType) =>
            if IsDisposable(resultType) then
              var span := Span(u.usingKeyword.start, u.closeParen.end);
              Some(Diagnostic(DiagnosticId, RuleSeverity, span, text[span.start..span.end]))
            else None
        else None
  }

  /** The decision, stated without the helper predicates: a diagnostic is reported
      exactly when the declared type resolves to the named generic
      ``System.Threading.Tasks.Task`1`` whose first type argument reaches
      `System.IDisposable` through a chain of implemented interfaces. */
  lemma ReportedIffTaskOfDisposable(text: string, u: UsingStatement)
    requires HostInvariants(text, u)
    ensures AnalyzeUsingStatement(text, u).Some? <==>
              && u.declaration.Some?
              && u.declaration.value.resolvedType.Some?
              && var t := u.declaration.value.resolvedType.value;
                 && t.kind == NamedType
                 && t.isGeneric
                 && t.fullName == "System.Threading.Tasks.Task`1"
                 && exists chain :: DisposalChain(t.typeArgs[0], chain)
  {
    if u.declaration.Some? && u.declaration.value.resolvedType.Some? {
      var t := u.declaration.value.resolvedType.value;
      if t.isGeneric && t.fullName == TaskOfTName {
        DisposableIffChain(t.typeArgs[0]);
      }
    }
  }

  /** The decision and the report depend on the declared type and the header
      tokens only: changing the declarators (how many, which names, which
      initializers) yields the same diagnostic, so a statement with several
      declarators is still reported once. */
  lemma DeclaratorsDoNotMatter(text: string, u: UsingStatement, vs: seq<Declarator>)
    requires HostInvariants(text, u)
    requires u.declaration.Some?
    ensures HostInvariants(text, u.(declaration := Some(u.declaration.value.(variables := vs))))
    ensures AnalyzeUsingStatement(text, u.(declaration := Some(u.declaration.value.(variables := vs))))
            == AnalyzeUsingStatement(text, u)
  {
  }

  /** A `Task<T>` declaration is reported exactly when `T` is disposable, and a
      declaration of a type that is not `Task`1` (such as the awaited result) is
      never reported. */
  lemma TaskOfDisposableFlagged(resultType: Ty)
    ensures FlagsType(TaskOf(resultType)) <==> IsDisposable(resultType)
  {
  }

  /** A type that is not the generic `Task`1` is never flagged, disposable or not. */
  lemma NonTaskNotFlagged(t: Ty)
    requires ArityConsistent(t)
    requires !t.isGeneric || t.fullName != TaskOfTName
    ensures !FlagsType(t)
  {
  }
}

=== FILE: CodeFix.dfy ===
/** The TLV0001 code fix: locate the using statement a diagnostic points into and
    wrap the initializer of every declarator in `await`. */
module CodeFix {
  import opened Wrappers
  import opened Syntax
  import Analyzer

  /** The diagnostic ids this fix answers to. */
  const FixableDiagnosticIds: seq<string> := [Analyzer.DiagnosticId]

  /** The host routes a diagnostic to this fix exactly when its id is listed. */
  predicate Fixes(id: string)
    ensures Fixes(id) <==> id == "TLV0001"
  {
    id in FixableDiagnosticIds
  }

  /** A registered fix: its equivalence key, the path of the using statement it
      rewrites, and the diagnostic it fixes. */
  datatype CodeAction = CodeAction(equivalenceKey: string, target: seq<nat>, diagnostic: Analyzer.Diagnostic)

  /** Why `AddAwaitAsync` fails: it dereferences the statement's declaration and
      each declarator's initializer without a null check, so a using statement
      over a bare expression, or a declarator without `= value`, throws. */
  datatype FixError = NullDeclaration | NullInitializer

  /** `AncestorsAndSelf().OfType<UsingStatementSyntax>().FirstOrDefault()` for the
      node at path `p`: the path of the innermost using statement among the node
      and its ancestors, or `None` when there is none. */
  function FindUsing(root: Node, p: seq<nat>): (r: Option<seq<nat>>)
    requires Lookup(root, p).Some?
    ensures r.Some? ==> IsPrefix(r.value, p) && IsUsingAt(root, r.value)
    ensures r.Some? ==> forall k :: |r.value| < k <= |p| ==> !IsUsingAt(root, p[..k])
    ensures r.None? ==> forall k :: 0 <= k <= |p| ==> !IsUsingAt(root, p[..k])
    decreases |p|
  {
    assert p[..0] == [];
    if |p| == 0 then
      if root.Using? then Some([]) else None
    else
      LookupStep(root, p);
      var c := Child(root, p[0]).value;
      match FindUsing(c, p[1..])
      case Some(q) =>
        assert ([p[0]] + q)[1..] == q;
        assert p[..|q| + 1] == [p[0]] + p[1..][..|q|];
        Some([p[0]] + q)
      case None =>
        if root.Using? then Some([]) else None
  }

  /** `RegisterCodeFixes`: takes the first diagnostic of the context and the node
      the host found at its span (as a path); registers a fix targeting the
      nearest enclosing using statement, or nothing when there is none. */
  function RegisterCodeFixes(diagnostics: seq<Analyzer.Diagnostic>, root: Node, found: seq<nat>)
    : (r: Option<CodeAction>)
    requires |diagnostics| >= 1
    requires Lookup(root, found).Some?
    ensures r.None? <==> forall k :: 0 <= k <= |found| ==> !IsUsingAt(root, found[..k])
    ensures r.Some? ==>
              && r.value.diagnostic == diagnostics[0]
              && r.value.equivalenceKey == "TLV0001-CodeFix"
              && IsPrefix(r.value.target, found)
              && IsUsingAt(root, r.value.target)
              && forall k :: |r.value.target| < k <= |found| ==> !IsUsingAt(root, found[..k])
  {
    match FindUsing(root, found)
    case None => None
    case Some(target) =>
      assert found[..|target|] == target;
      Some(CodeAction(Analyzer.DiagnosticId + "-CodeFix", target, diagnostics[0]))
  }

  /** Every declarator has an initializer. */
  predicate AllInitialized(ds: seq<Declarator>) {
    forall i :: 0 <= i < |ds| ==> ds[i].initializer.Some?
  }

  /** `ws` is `ds` with every initializer value wrapped in `await`: same length,
      same order, same names. */
  predicate AwaitedAll(ds: seq<Declarator>, ws: seq<Declarator>) {
    && |ws| == |ds|
    && forall i :: 0 <= i < |ds| ==>
         && ds[i].initializer.Some?
         && ws[i] == Declarator(ds[i].identifier, Some(Await(ds[i].initializer.value)))
  }

  /** The loop of `AddAwaitAsync`: a new declarator list in which every
      initializer is wrapped in `await`, failing on the first declarator that has
      no initializer. */
  method WrapDeclarators(ds: seq<Declarator>) returns (r: Result<seq<Declarator>, FixError>)
    ensures r.Success? <==> AllInitialized(ds)
    ensures r.Success? ==> AwaitedAll(ds, r.value)
    ensures r.Failure? ==> r.error == NullInitializer
  {
    var ws: seq<Declarator> := [];
    var i := 0;
    while i < |ds|
      invariant 0 <= i <= |ds|
      invariant |ws| == i
      invariant forall j :: 0 <= j < i ==>
                  && ds[j].initializer.Some?
                  && ws[j] == Declarator(ds[j].identifier, Some(Await(ds[j].initializer.value)))
    {
      var d := ds[i];
      if d.initializer.None? {
        return Failure(NullInitializer);
      }
      ws := ws + [d.(initializer := Some(Await(d.initializer.value)))];
      i := i + 1;
    }
    return Success(ws);
  }

  /** `u2` is `u` with the declarators of its declaration awaited, and nothing
      else about the statement changed. */
  predicate RewrittenHeader(u: UsingStatement, u2: UsingStatement) {
    && u.declaration.Some?
    && u2.declaration.Some?
    && u2.usingKeyword == u.usingKeyword
    && u2.closeParen == u.closeParen
    && u2.expression == u.expression
    && u2.body == u.body
    && u2.declaration.value.typeSyntax == u.declaration.value.typeSyntax
    && u2.declaration.value.resolvedType == u.declaration.value.resolvedType
    && AwaitedAll(u.declaration.value.variables, u2.declaration.value.variables)
  }

  /** `AddAwaitAsync`: rebuilds the using statement at `at` with every
      initializer awaited and replaces that one node in the tree. Everything
      outside that statement's declarators is left as it was: putting the old
      statement back yields the original tree. The node keeps the span recorded
      before the edit; positions are not recomputed. */
  method AddAwait(root: Node, at: seq<nat>) returns (r: Result<Node, FixError>)
    requires IsUsingAt(root, at)
    ensures var u := Lookup(root, at).value.stmt;
            r.Failure? <==> u.declaration.None? || !AllInitialized(u.declaration.value.variables)
    ensures r.Success? ==>
              && IsUsingAt(r.value, at)
              && Lookup(r.value, at).value.span == Lookup(root, at).value.span
              && RewrittenHeader(Lookup(root, at).value.stmt, Lookup(r.value, at).value.stmt)
              && ReplaceAt(r.value, at, Lookup(root, at).value) == root
    ensures r.Success? ==> forall q :: Disjoint(at, q) ==> Lookup(r.value, q) == Lookup(root, q)
  {
    var node := Lookup(root, at).value;
    var u := node.stmt;
    if u.declaration.None? {
      return Failure(NullDeclaration);
    }
    var decl := u.declaration.value;
    var wrapped := WrapDeclarators(decl.variables);
    if wrapped.Failure? {
      return Failure(wrapped.error);
    }
    var newDeclaration := decl.(variables := wrapped.value);
    var newUsing := u.(declaration := Some(newDeclaration));
    var newRoot := ReplaceAt(root, at, Using(node.span, newUsing));
    forall q | Disjoint(at, q)
      ensures Lookup(newRoot, q) == Lookup(root, q)
    {
      ReplaceAtLeavesOthers(root, at, Using(node.span, newUsing), q);
    }
    ReplaceAtUndo(root, at, Using(node.span, newUsing));
    return Success(newRoot);
  }

  /** Removes one `await` from an initializer, if it has one. */
  function StripAwait(d: Declarator): (r: Declarator) {
    match d.initializer
    case Some(Await(e)) => d.(initializer := Some(e))
    case _ => d
  }

  /** Removing the added `await` from every declarator gives back the original
      declarators: the rewrite changes nothing but the wrapping. */
  lemma UnwrapRestores(ds: seq<Declarator>, ws: seq<Declarator>)
    requires AwaitedAll(ds, ws)
    ensures seq(|ws|, i requires 0 <= i < |ws| => StripAwait(ws[i])) == ds
  {
  }

  /** The rewrite is not idempotent: awaiting already awaited declarators wraps
      their initializers a second time. */
  lemma RewriteTwiceDoubleWraps(ds: seq<Declarator>, ws: seq<Declarator>, ws2: seq<Declarator>)
    requires AwaitedAll(ds, ws) && AwaitedAll(ws, ws2)
    ensures forall i :: 0 <= i < |ds| ==>
              ws2[i].initializer == Some(Await(Await(ds[i].initializer.value)))
    ensures |ds| > 0 ==> ws2 != ws
  {
    if |ds| > 0 {
      assert ws2[0].initializer.value == Await(ws[0].initializer.value);
    }
  }
}

=== FILE: Scenarios.dfy ===
/** The repository's four unit tests, restated over the model: the method
    `Foo` of the test class with its one using statement, analysed and fixed. */
module Scenarios {
  import opened Wrappers
  import opened Types
  import opened Syntax
  import opened Analyzer
  import CodeFix

  /** `System.IO.Stream`, which implements `System.IDisposable`. */
  function StreamTy(): (r: Ty)
    ensures IsDisposable(r)
  {
    var r := Ty(NamedType, "System.IO.Stream", false, [], [IDisposableTy()]);
    assert IsDisposable(IDisposableTy()) && IDisposableTy() in r.allInterfaces;
    r
  }

  /** Source text of an expression. */
  function RenderExpr(e: Expr): (r: string) {
    match e
    case Identifier(n) => n
    case Invocation(c) => c + "()"
    case Await(x) => "await " + RenderExpr(x)
    case OtherExpr(t) => t
  }

  /** Source text of a declarator. */
  function RenderDeclarator(d: Declarator): (r: string) {
    match d.initializer
    case None => d.identifier
    case Some(e) => d.identifier + " = " + RenderExpr(e)
  }

  /** Source text of a comma-separated declarator list. */
  function RenderDeclarators(ds: seq<Declarator>): (r: string)
    decreases |ds|
  {
    if |ds| == 0 then ""
    else if |ds| == 1 then RenderDeclarator(ds[0])
    else RenderDeclarator(ds[0]) + ", " + RenderDeclarators(ds[1..])
  }

  /** Source text of a using statement's header, `using` through `)`. */
  function RenderHeader(u: UsingStatement): (r: string) {
    "using ("
      + (match u.declaration
         case Some(d) => d.typeSyntax + " " + RenderDeclarators(d.variables)
         case None => match u.expression case Some(e) => RenderExpr(e) case None => "")
      + ")"
  }

  // The body of the test method `Foo`, indented as in the test source: the
  // statement `await Task.Delay(100);`, then a using statement with `header`
  // and an empty body.
  const Indent: string := "                "
  const Delay: string := "await Task.Delay(100);"
  const Prelude: string := Indent + Delay + "\n" + Indent
  const BodyText: string := "\n                {\n                }"

  /** Offset of the `using` keyword in every scenario text. */
  const UsingStart: nat := 55

  /** The source text of the method body around a using statement with `header`. */
  function MethodText(header: string): (r: string) {
    Prelude + header + BodyText
  }

  /** The using statement of the tests with header text `header`, binding
      `stream` to `init` and declaring a type that resolves to `resolved`. Its
      tokens sit where they are in `MethodText(header)`. */
  function TestUsing(header: string, init: Expr, resolved: Ty): (r: UsingStatement)
    requires |header| >= 6
  {
    var close := UsingStart + |header|;
    UsingStatement(
      Span(UsingStart, UsingStart + 5),
      Some(Declaration("var", Some(resolved), [Declarator("stream", Some(init))])),
      None,
      Span(close - 1, close),
      Block(Span(close + 17, close + 36), []))
  }

  const AwaitHeader: string := "using (var stream = await GetStreamAsync())"
  const SyncHeader: string := "using (var stream = GetStream())"
  const MissingHeader: string := "using (var stream = GetStreamAsync())"

  /** The header's characters sit at offsets `UsingStart` to `UsingStart + |header|`
      of the method text. */
  lemma HeaderInText(header: string)
    ensures |Prelude| == UsingStart
    ensures |MethodText(header)| == UsingStart + |header| + 36
    ensures MethodText(header)[UsingStart..UsingStart + |header|] == header
  {
    assert (Prelude + header + BodyText)[|Prelude|..|Prelude| + |header|] == header;
  }

  /** `using (var stream = await GetStreamAsync())` declares a `Stream`: no diagnostic. */
  lemma AwaitPresentNotReported()
    ensures HostInvariants(MethodText(AwaitHeader),
                           TestUsing(AwaitHeader, Await(Invocation("GetStreamAsync")), StreamTy()))
    ensures AnalyzeUsingStatement(MethodText(AwaitHeader),
              TestUsing(AwaitHeader, Await(Invocation("GetStreamAsync")), StreamTy())) == None
  {
    HeaderInText(AwaitHeader);
  }

  /** `using (var stream = GetStream())` declares a `Stream`: no diagnostic. */
  lemma SyncCallNotReported()
    ensures HostInvariants(MethodText(SyncHeader), TestUsing(SyncHeader, Invocation("GetStream"), StreamTy()))
    ensures AnalyzeUsingStatement(MethodText(SyncHeader),
              TestUsing(SyncHeader, Invocation("GetStream"), StreamTy())) == None
  {
    HeaderInText(SyncHeader);
  }

  /** The flagged statement of the tests: `GetStreamAsync()` returns `Task<Stream>`. */
  function MissingUsing(): (r: UsingStatement) {
    TestUsing(MissingHeader, Invocation("GetStreamAsync"), TaskOf(StreamTy()))
  }

  /** `using (var stream = GetStreamAsync())` declares a `Task<Stream>`: one
      warning TLV0001 whose message argument is the header's text. */
  lemma MissingAwaitReported()
    ensures HostInvariants(MethodText(MissingHeader), MissingUsing())
    ensures AnalyzeUsingStatement(MethodText(MissingHeader), MissingUsing())
            == Some(Diagnostic("TLV0001", Warning, Span(55, 92),
                               "using (var stream = GetStreamAsync())"))
  {
    HeaderInText(MissingHeader);
    TaskOfRoundTrip(StreamTy());
  }

  /** The test method body: `await Task.Delay(100);` then the using statement. */
  function TestRoot(): (r: Node) {
    Block(Span(0, 128), [
      Leaf(Span(16, 38), Delay),
      Using(Span(55, 128), MissingUsing())])
  }

  /** The rewritten test statement declares `var stream = await GetStreamAsync()`
      and keeps its body. */
  lemma RewrittenTestDeclarators(u2: UsingStatement)
    requires CodeFix.RewrittenHeader(MissingUsing(), u2)
    ensures u2.declaration.value.typeSyntax == "var"
    ensures u2.declaration.value.variables == [Declarator("stream", Some(Await(Invocation("GetStreamAsync"))))]
    ensures u2.body == Block(Span(109, 128), [])
  {
    var u := MissingUsing();
    assert u.declaration.value.variables == [Declarator("stream", Some(Invocation("GetStreamAsync")))];
  }

  /** The header of the test statement, once rewritten, reads
      `using (var stream = await GetStreamAsync())`. */
  lemma RewrittenTestHeader(u2: UsingStatement)
    requires CodeFix.RewrittenHeader(MissingUsing(), u2)
    ensures RenderHeader(u2) == "using (var stream = await GetStreamAsync())"
    ensures u2.body == Block(Span(109, 128), [])
  {
    RewrittenTestDeclarators(u2);
    RenderAwaitedHeader(u2);
  }

  /** Rendering the declarator `stream = await GetStreamAsync()`. */
  lemma RenderAwaitedDeclarator()
    ensures RenderDeclarators([Declarator("stream", Some(Await(Invocation("GetStreamAsync"))))])
            == "stream = await GetStreamAsync()"
  {
    assert RenderExpr(Await(Invocation("GetStreamAsync"))) == "await GetStreamAsync()";
  }

  /** Rendering a declaration of `var stream = await GetStreamAsync()`. */
  lemma RenderAwaitedHeader(u: UsingStatement)
    requires u.declaration.Some? && u.declaration.value.typeSyntax == "var"
    requires u.declaration.value.variables == [Declarator("stream", Some(Await(Invocation("GetStreamAsync"))))]
    ensures RenderHeader(u) == "using (var stream = await GetStreamAsync())"
  {
    RenderAwaitedDeclarator();
    var inner := "var" + " " + "stream = await GetStreamAsync()";
    assert RenderHeader(u) == "using (" + inner + ")";
  }

  /** The fix test: the diagnostic on the header leads to the using statement, and
      fixing it turns the header into `using (var stream = await GetStreamAsync())`,
      leaving the statement's body and the preceding statement as they were. */
  method CodeFixOnTestInput() returns (fixed: Result<Node, CodeFix.FixError>)
    ensures fixed.Success?
    ensures IsUsingAt(fixed.value, [1])
    ensures RenderHeader(Lookup(fixed.value, [1]).value.stmt)
            == "using (var stream = await GetStreamAsync())"
    ensures Lookup(fixed.value, [1]).value.stmt.body == Block(Span(109, 128), [])
    ensures Lookup(fixed.value, [0]) == Some(Leaf(Span(16, 38), "await Task.Delay(100);"))
  {
    var root := TestRoot();
    MissingAwaitReported();
    var diagnostic := AnalyzeUsingStatement(MethodText(MissingHeader), MissingUsing()).value;
    assert [1][..1] == [1] && [1][..0] == [];
    var action := CodeFix.RegisterCodeFixes([diagnostic], root, [1]);
    assert action.value.target == [1];
    fixed := CodeFix.AddAwait(root, action.value.target);
    RewrittenTestHeader(Lookup(fixed.value, [1]).value.stmt);
    assert Disjoint([1], [0]);
  }
}

=== FILE: Syntax.dfy ===
/** The slice of the C# syntax tree the rule reads and rewrites: using statements
    with their declaration and declarators, initializer expressions, and a tree of
    statements addressed by child-index paths. */
module Syntax {
  import opened Wrappers
  import opened Types

  /** A half-open range `[start, end)` of the source text (`TextSpan`). Positions
      count elements of the `string` sequence (Unicode scalar values), not the
      UTF-16 code units Roslyn counts. */
  datatype Span = Span(start: nat, end: nat)

  /** Initializer expressions, as far as the rewrite needs to tell them apart. */
  datatype Expr =
    | Identifier(name: string)
    | Invocation(callee: string)
    | Await(operand: Expr)
    | OtherExpr(text: string)

  /** `VariableDeclaratorSyntax`: a name and an optional `= value` initializer. */
  datatype Declarator = Declarator(identifier: string, initializer: Option<Expr>)

  /** `VariableDeclarationSyntax`: the declared type as written (`var`, `Stream`),
      the type the semantic model resolves it to (absent when resolution fails),
      and the declarators. */
  datatype Declaration = Declaration(
    typeSyntax: string,
    resolvedType: Option<Ty>,
    variables: seq<Declarator>)

  /** `UsingStatementSyntax`: the `using` keyword, either a declaration or a bare
      expression between the parentheses, the `)` token, and the body. */
  datatype UsingStatement = UsingStatement(
    usingKeyword: Span,
    declaration: Option<Declaration>,
    expression: Option<Expr>,
    closeParen: Span,
    body: Node)

  /** A statement node. Every node has a span; children are addressed by index:
      a using statement has its body as child 0, a block has its statements. */
  datatype Node =
    | Using(span: Span, stmt: UsingStatement)
    | Block(span: Span, children: seq<Node>)
    | Leaf(span: Span, text: string)

  /** The tokens of a using statement lie in order in a text of length `n`:
      `using` before `)`, `)` before the body. The parser guarantees this. */
  predicate TokensInOrder(u: UsingStatement, n: nat) {
    && u.usingKeyword.start <= u.usingKeyword.end <= u.closeParen.start
    && u.closeParen.start <= u.closeParen.end <= u.body.span.start
    && u.closeParen.end <= n
  }

  /** Child `i` of a node, if it has one. */
  function Child(n: Node, i: nat): (r: Option<Node>)
    ensures r.Some? <==> (n.Using? && i == 0) || (n.Block? && i < |n.children|)
  {
    match n
    case Using(_, u) => if i == 0 then Some(u.body) else None
    case Block(_, cs) => if i < |cs| then Some(cs[i]) else None
    case Leaf(_, _) => None
  }

  /** The node a path of child indices leads to from `n`, if the path exists. */
  function Lookup(n: Node, p: seq<nat>): (r: Option<Node>)
    decreases |p|
  {
    if |p| == 0 then Some(n)
    else match Child(n, p[0])
      case None => None
      case Some(c) => Lookup(c, p[1..])
  }

  /** A using statement sits at path `p`. */
  predicate IsUsingAt(root: Node, p: seq<nat>) {
    Lookup(root, p).Some? && Lookup(root, p).value.Using?
  }

  /** `p` is a prefix of `q` (the node at `p` is an ancestor-or-self of the node at `q`). */
  predicate IsPrefix(p: seq<nat>, q: seq<nat>) {
    |p| <= |q| && q[..|p|] == p
  }

  /** Neither path lies under the other: their nodes are in disjoint subtrees. */
  predicate Disjoint(p: seq<nat>, q: seq<nat>) {
    !IsPrefix(p, q) && !IsPrefix(q, p)
  }

  /** Node `n` with its child `i` replaced by `c`. Nothing else about the node
      changes: a using statement keeps its keyword, declaration, expression and
      `)`, a block keeps its other statements. */
  function WithChild(n: Node, i: nat, c: Node): (r: Node)
    requires Child(n, i).Some?
    ensures Child(r, i) == Some(c)
    ensures forall j :: j != i ==> Child(r, j) == Child(n, j)
    ensures n.Using? ==> r == Using(n.span, n.stmt.(body := c))
    ensures n.Block? ==> r == Block(n.span, n.children[i := c])
  {
    match n
    case Using(s, u) => Using(s, u.(body := c))
    case Block(s, cs) => Block(s, cs[i := c])
  }

  /** `ReplaceNode`: the tree `root` with the node at path `p` replaced by `m`. */
  function ReplaceAt(root: Node, p: seq<nat>, m: Node): (r: Node)
    requires Lookup(root, p).Some?
    ensures Lookup(r, p) == Some(m)
    decreases |p|
  {
    if |p| == 0 then m
    else WithChild(root, p[0], ReplaceAt(Child(root, p[0]).value, p[1..], m))
  }

  /** A prefix of an existing path exists too, and the walk down it is the walk
      down the path's first step followed by the rest. */
  lemma {:induction false} LookupPrefix(n: Node, p: seq<nat>, k: nat)
    requires Lookup(n, p).Some?
    requires k <= |p|
    ensures Lookup(n, p[..k]).Some?
    ensures 0 < k ==> Lookup(n, p[..k]) == Lookup(Child(n, p[0]).value, p[1..][..k - 1])
    decreases |p|
  {
    if 0 < k {
      var c := Child(n, p[0]).value;
      assert p[..k][0] == p[0];
      assert p[..k][1..] == p[1..][..k - 1];
      LookupPrefix(c, p[1..], k - 1);
    }
  }

  /** The walk from the root down path `p` has its first step through child `p[0]`. */
  lemma LookupStep(root: Node, p: seq<nat>)
    requires Lookup(root, p).Some?
    requires |p| > 0
    ensures Child(root, p[0]).Some?
    ensures forall k :: 0 < k <= |p| ==>
              Lookup(root, p[..k]) == Lookup(Child(root, p[0]).value, p[1..][..k - 1])
  {
    forall k | 0 < k <= |p|
      ensures Lookup(root, p[..k]) == Lookup(Child(root, p[0]).value, p[1..][..k - 1])
    {
      LookupPrefix(root, p, k);
    }
  }

  /** Replacing the node at `p` leaves every node in a disjoint subtree as it was. */
  lemma {:induction false} ReplaceAtLeavesOthers(root: Node, p: seq<nat>, m: Node, q: seq<nat>)
    requires Lookup(root, p).Some?
    requires Disjoint(p, q)
    ensures Lookup(ReplaceAt(root, p, m), q) == Lookup(root, q)
    decreases |p|
  {
    var r := ReplaceAt(root, p, m);
    assert |p| > 0 && |q| > 0;
    var c := Child(root, p[0]).value;
    if q[0] != p[0] {
      assert Child(r, q[0]) == Child(root, q[0]);
    } else {
      assert Disjoint(p[1..], q[1..]) by {
        assert p == [p[0]] + p[1..] && q == [q[0]] + q[1..];
      }
      ReplaceAtLeavesOthers(c, p[1..], m, q[1..]);
    }
  }

  /** Replacing the node at `p` rebuilds each ancestor from the old ancestor by
      swapping in its rebuilt child on the path, and changes nothing else in it:
      an enclosing using statement keeps its whole header. */
  lemma {:induction false} ReplaceAtRebuildsAncestors(root: Node, p: seq<nat>, m: Node, k: nat)
    requires Lookup(root, p).Some?
    requires k < |p|
    ensures Lookup(root, p[..k]).Some? && Child(Lookup(root, p[..k]).value, p[k]).Some?
    ensures Lookup(ReplaceAt(root, p, m), p[..k]).Some?
    ensures Lookup(ReplaceAt(root, p, m), p[..k + 1]).Some?
    ensures Lookup(ReplaceAt(root, p, m), p[..k]).value
            == WithChild(Lookup(root, p[..k]).value, p[k], Lookup(ReplaceAt(root, p, m), p[..k + 1]).value)
    decreases |p|
  {
    var r := ReplaceAt(root, p, m);
    var c := Child(root, p[0]).value;
    LookupPrefix(root, p, k);
    LookupPrefix(root, p, k + 1);
    LookupPrefix(r, p, k);
    LookupPrefix(r, p, k + 1);
    if k == 0 {
      assert p[..0] == [] && p[1..][..0] == [];
    } else {
      assert p[k] == p[1..][k - 1];
      assert p[1..][..k] == p[1..][..k - 1 + 1];
      ReplaceAtRebuildsAncestors(c, p[1..], m, k - 1);
    }
  }

  /** Putting the original node back where it was replaced gives back the
      original tree: the replacement changes nothing but the node at `p`. */
  lemma {:induction false} ReplaceAtUndo(root: Node, p: seq<nat>, m: Node)
    requires Lookup(root, p).Some?
    ensures Lookup(ReplaceAt(root, p, m), p).Some?
    ensures ReplaceAt(ReplaceAt(root, p, m), p, Lookup(root, p).value) == root
    decreases |p|
  {
    if |p| > 0 {
      var c := Child(root, p[0]).value;
      ReplaceAtUndo(c, p[1..], m);
      if root.Block? {
        assert root.children[p[0] := ReplaceAt(c, p[1..], m)][p[0] := c] == root.children;
      }
    }
  }
}

=== FILE: Types.dfy ===
/** The part of the Roslyn symbol model the rule looks at: a type symbol with its
    full metadata name, whether it is generic, its type arguments and the list of
    all interfaces it implements (`AllInterfaces`). */
module Types {
  import opened Wrappers

  /** Whether a type symbol is an `INamedTypeSymbol` (classes, structs, interfaces,
      delegates, enums) or some other `ITypeSymbol` (arrays, pointers, type
      parameters, `dynamic`). */
  datatype SymbolKind = NamedType | OtherType

  /** A resolved type. `fullName` is the metadata name including the arity suffix,
      as in ``System.Threading.Tasks.Task`1``. */
  datatype Ty = Ty(
    kind: SymbolKind,
    fullName: string,
    isGeneric: bool,
    typeArgs: seq<Ty>,
    allInterfaces: seq<Ty>)

  /** Full name of the generic task type `Task<TResult>`. */
  const TaskOfTName: string := "System.Threading.Tasks.Task`1"

  /** Full name of the disposal interface. */
  const IDisposableName: string := "System.IDisposable"

  /** A generic type named `Task`1` carries its one type argument: Roslyn never
      hands the analyzer such a symbol with no type arguments, and the source relies
      on that when it takes the first one. */
  predicate ArityConsistent(t: Ty) {
    t.isGeneric && t.fullName == TaskOfTName ==> |t.typeArgs| >= 1
  }

  /** `IsTaskWithResult`: `Some(T)` exactly when `t` is `Task<T>`, `None` otherwise
      (the C# out-parameter is then null). */
  function IsTaskWithResult(t: Ty): (r: Option<Ty>)
    requires ArityConsistent(t)
    ensures r.Some? <==> t.isGeneric && t.fullName == TaskOfTName
    ensures !t.isGeneric ==> r == None
    ensures r.Some? ==> r.value == t.typeArgs[0] && r.value < t
  {
    if !t.isGeneric then None
    else if t.fullName != TaskOfTName then None
    else Some(t.typeArgs[0])
  }

  /** The type is the named type `System.IDisposable` itself. */
  predicate IsIDisposable(t: Ty) {
    t.kind == NamedType && t.fullName == IDisposableName
  }

  /** `IsDisposable`: the type is `System.IDisposable`, or one of the interfaces it
      implements is disposable. */
  predicate IsDisposable(t: Ty)
    decreases t
  {
    IsIDisposable(t) || exists i :: i in t.allInterfaces && IsDisposable(i)
  }

  /** Builds `Task<T>` for a result type `T`. `Task<T>` implements `IAsyncResult`
      and `IDisposable`. */
  function TaskOf(resultType: Ty): (r: Ty)
    ensures ArityConsistent(r)
  {
    Ty(NamedType, TaskOfTName, true, [resultType],
       [Ty(NamedType, "System.IAsyncResult", false, [], []), IDisposableTy()])
  }

  /** The interface `System.IDisposable`. */
  function IDisposableTy(): (r: Ty)
    ensures IsIDisposable(r)
  {
    Ty(NamedType, IDisposableName, false, [], [])
  }

  /** `IsTaskWithResult` recovers the result type `Task<T>` was built from. */
  lemma TaskOfRoundTrip(resultType: Ty)
    ensures IsTaskWithResult(TaskOf(resultType)) == Some(resultType)
  {
  }

  // ---------------------------------------------------------------------------
  // An independent characterisation of IsDisposable: a chain of interfaces
  // leading from the type to System.IDisposable.

  /** `chain` starts at `t`, each element implements the next one, and the last
      element is `System.IDisposable`. */
  ghost predicate DisposalChain(t: Ty, chain: seq<Ty>) {
    && |chain| >= 1
    && chain[0] == t
    && IsIDisposable(chain[|chain| - 1])
    && forall k :: 0 <= k < |chain| - 1 ==> chain[k + 1] in chain[k].allInterfaces
  }

  /** Every disposable type has a chain of implemented interfaces reaching
      `System.IDisposable`. */
  lemma {:induction false} DisposableHasChain(t: Ty)
    requires IsDisposable(t)
    ensures exists chain :: DisposalChain(t, chain)
    decreases t
  {
    if IsIDisposable(t) {
      assert DisposalChain(t, [t]);
    } else {
      var i :| i in t.allInterfaces && IsDisposable(i);
      DisposableHasChain(i);
      var c :| DisposalChain(i, c);
      var chain := [t] + c;
      forall k | 0 <= k < |chain| - 1
        ensures chain[k + 1] in chain[k].allInterfaces
      {
        if k > 0 {
          assert chain[k] == c[k - 1] && chain[k + 1] == c[k];
        }
      }
      assert DisposalChain(t, chain);
    }
  }

  /** Every type with such a chain is disposable. */
  lemma {:induction false} ChainMakesDisposable(t: Ty, chain: seq<Ty>)
    requires DisposalChain(t, chain)
    ensures IsDisposable(t)
    decreases |chain|
  {
    if |chain| > 1 {
      var next := chain[1];
      assert next in t.allInterfaces;
      var rest := chain[1..];
      forall k | 0 <= k < |rest| - 1
        ensures rest[k + 1] in rest[k].allInterfaces
      {
        assert rest[k] == chain[k + 1] && rest[k + 1] == chain[k + 2];
      }
      assert DisposalChain(next, rest);
      ChainMakesDisposable(next, rest);
    }
  }

  /** `IsDisposable(t)` holds exactly when an interface chain leads from `t` to
      `System.IDisposable`. */
  lemma DisposableIffChain(t: Ty)
    ensures IsDisposable(t) <==> exists chain :: DisposalChain(t, chain)
  {
    if IsDisposable(t) {
      DisposableHasChain(t);
    }
    if exists chain :: DisposalChain(t, chain) {
      var chain :| DisposalChain(t, chain);
      ChainMakesDisposable(t, chain);
    }
  }

  /** Adding interfaces to a type never makes a disposable type non-disposable:
      a type that implements at least the interfaces of a disposable type, with
      the same kind and name, is disposable too. */
  lemma MoreInterfacesStayDisposable(t: Ty, u: Ty)
    requires IsDisposable(t)
    requires u.kind == t.kind && u.fullName == t.fullName
    requires forall i :: i in t.allInterfaces ==> i in u.allInterfaces
    ensures IsDisposable(u)
  {
    if !IsIDisposable(t) {
      var i :| i in t.allInterfaces && IsDisposable(i);
      assert i in u.allInterfaces;
    }
  }

  /** Roslyn's `AllInterfaces` is transitively closed: the interfaces of an
      implemented interface are themselves in the list, at every level. */
  ghost predicate InterfaceClosed(t: Ty)
    decreases t
  {
    && (forall i, j :: i in t.allInterfaces && j in i.allInterfaces ==> j in t.allInterfaces)
    && (forall i :: i in t.allInterfaces ==> InterfaceClosed(i))
  }

  /** On transitively closed interface lists the recursion of `IsDisposable`
      adds nothing: a type is disposable exactly when it is `System.IDisposable`
      or lists `System.IDisposable` among its interfaces. */
  lemma {:induction false} ClosedDisposableIsDirect(t: Ty)
    requires InterfaceClosed(t)
    ensures IsDisposable(t) <==>
              IsIDisposable(t) || exists i :: i in t.allInterfaces && IsIDisposable(i)
    decreases t
  {
    if IsDisposable(t) && !IsIDisposable(t) {
      var i :| i in t.allInterfaces && IsDisposable(i);
      ClosedDisposableIsDirect(i);
      if !IsIDisposable(i) {
        var j :| j in i.allInterfaces && IsIDisposable(j);
        assert j in t.allInterfaces;
      }
    }
  }
}

=== FILE: Wrappers.dfy ===
/** Option and Result, the failure-compatible wrappers the rest of the model uses
    in place of C# nulls and thrown exceptions. */
module Wrappers {

  /** A value that may be absent (a C# reference that may be null). */
  datatype Option<+T> = None | Some(value: T)

  /** A computation that either produced a value or failed with an error
      (a C# method that returned normally or threw). */
  datatype Result<+R, +E> = Success(value: R) | Failure(error: E)
}
